=== FILE: README.md ===
# DORA session state machine

DORA is a single-user voice and camera assistant built as a Streamlit page
(`main.py`). Every interaction re-runs the page script from top to bottom,
and the script reads and writes seven session-state fields: the chat history,
the camera and listening flags, the digest of the last submitted clip, the
`processing` flag, the last good camera frame, and the camera failure count.
This project models one run of that script as a pure function,
`Controller.Run(state, click, audio, hash, world)`. It returns the new state,
what the webcam placeholder shows, the external effects in order, the error
messages shown, and whether the page asks for another run.

One run does the following, in the order of the script:

1. The Start/Pause Camera buttons act first and end the run (`st.rerun()`).
2. Otherwise the camera is polled once, if it is on. A frame becomes the last
   good frame and resets the counter. A failure keeps the last frame and adds
   one to the counter. The camera switches off when the counter passes 10.
3. The Start/Stop Listening buttons act and end the run.
4. In listening mode, one cycle runs: record, transcribe, reply, speak. A
   blank transcript ends the cycle silently. A transcript containing
   "goodbye" (any case) gets a fixed farewell and ends listening. Any fault
   ends listening and keeps the messages already appended.
5. A clip held by the recording widget is processed once. This happens only
   when nothing is in flight, listening is off, and the clip's digest differs
   from the last one. A complete success ends the run.
6. Clear Chat empties the history, forgets the digest, stops listening, and
   ends the run.
7. Otherwise the page asks for the next run exactly when the camera is on and
   listening is off.

Every external outcome is a parameter of the run:

- the camera poll's result;
- each stage of the two audio paths (recorder, speech recognition, the
  agent, speech synthesis, file save and removal), each of which either
  returns a value or raises;
- the MD5 digest, as a function `hash` from bytes to digests.

Modules: `Basics` (Option, Stage), `Text` (strip, lower, substring search,
goodbye detection), `Session` (data model and invariant), `Camera`, `Voice`
(listening cycle), `Upload` (single-shot path), `Controller` (one run) and
`Properties` (sequences of runs and scenarios).

Behaviour of the code that is easy to misread:

- A blank transcript in the single-shot path leaves `processing` true. The
  reset at main.py:242 sits inside the `if` at main.py:216. Nothing else
  ever clears the flag, Clear Chat included, so the single-shot path stays
  closed for the rest of the session (`Properties.ProcessingIsSticky`,
  `Properties.BlankSubmissionLocksUpload`).
- Continuous listening does not loop by itself. The rerun at main.py:259
  requires listening to be off, so after a cycle the next one waits for
  another interaction (`Properties.ListeningDoesNotLoopByItself`).
- The camera is switched off when the count exceeds 10, that is on the 11th
  consecutive failure, not when it reaches 10.
- The assistant message is appended before speech synthesis runs. A
  synthesis fault therefore leaves both messages in the history.
- Clear Chat forgets the digest while the widget keeps the clip. The next
  run therefore processes the same clip again
  (`Properties.ClearChatReplaysHeldClip`).

## Model

| member | source | states |
|---|---|---|
| Session.Initial | main.py:40-53 | a new session has the camera on, listening off, nothing in flight, no history, no digest and no frame, and a failure count of 0, and satisfies the session invariant |
| Camera.StartCamera | main.py:74-77 | Start Camera turns the camera on and zeroes the failure count; no other field changes |
| Camera.PauseCamera | main.py:79-81 | Pause Camera turns the camera off and changes nothing else; the count and last frame are kept |
| Camera.CameraSection | main.py:86-105 | no poll and a "paused" view when the camera is off; otherwise exactly one poll; a frame becomes the last frame, zeroes the count and is shown; a failure keeps the last frame and adds exactly one to the count; the camera stays on exactly when the count is at most 10; the view is the hard error when it goes off, else the last frame if any, else "waiting"; only camera fields change; the counter bound is preserved |
| Camera.ConsecutiveFailures | main.py:89-103 | from an active camera with c failures, n more failures leave it on with count c + n while that is at most 10, and off with count 11 once it would exceed 10; the last good frame survives |
| Camera.PausedSeriesIsIdle | main.py:86 | with the camera off, any number of runs' polls change nothing |
| Camera.EleventhFailureDisables | main.py:94-97 | from count 0, failures 1 to 10 keep the camera on and the 11th switches it off |
| Text.Strip | main.py:134 | `strip()` returns the infix left after cutting whitespace off both ends; it neither starts nor ends with whitespace and is empty exactly when the input is all whitespace |
| Text.HasContent | main.py:134 | the guard `user_input and user_input.strip()`, written as a scan for a non-whitespace character; its meaning is stated by the two lemmas below |
| Text.HasContentIffNonSpace | main.py:216 | the transcript guard holds exactly when some character is not whitespace |
| Text.HasContentIffStripped | main.py:134 | the transcript guard holds exactly when stripping leaves something |
| Text.Lower | main.py:142 | `user_input.lower()` over ASCII letters; its meaning is stated by `Text.LowerPointwise` |
| Text.LowerPointwise | main.py:142 | `lower()` keeps the length and lowercases each character on its own |
| Text.Contains | main.py:142 | the substring test `"goodbye" in ...`, trying each starting position; its meaning is stated by `Text.ContainsIff` |
| Text.ContainsIff | main.py:142 | the substring search succeeds exactly when the token occurs at some index |
| Text.IsFarewell | main.py:142 | `"goodbye" in user_input.lower()`; its meaning is stated by `Text.FarewellIff` |
| Text.FarewellIff | main.py:222 | a transcript is a goodbye exactly when, with each character lowercased, it spells `goodbye` at some index |
| Text.FarewellInAnyContext | main.py:142 | a transcript that says goodbye still does with any words before and after it |
| Text.FarewellIgnoresCase | main.py:142 | a transcript and its lowercase form are judged alike |
| Text.WithoutGNoFarewell | main.py:142 | a transcript with no letter g in either case never counts as goodbye |
| Voice.StartListening | main.py:114-116 | Start Listening sets the listening flag and nothing else |
| Voice.StopListening | main.py:119-121 | Stop Listening clears the listening flag and nothing else |
| Voice.Reply | main.py:142-147 | a goodbye always gets the fixed farewell without asking the agent; a reply fails only when the transcript is not a goodbye and the agent raised |
| Voice.AgentCalls | main.py:146-147 | the agent is called for a non-blank transcript exactly when it is not a goodbye; stated by `Voice.Converse` and `Upload.Answer` |
| Voice.Abort | main.py:170-172 | the `except` of a listening cycle: listening is switched off and the fault reported; its consequences are stated by `Voice.ListenCycle` |
| Voice.Exchange | main.py:136-153 | after a non-blank transcript the question is appended first, then the reply if one was produced; the reply is the fixed farewell for a goodbye, else the agent's answer; replies keep following questions |
| Voice.Converse | main.py:136-168 | the history becomes the exchange; listening stays on exactly when it was on, nothing raised and the transcript is not a goodbye; no error exactly when a reply was produced and spoken; the agent is asked exactly when the transcript is not a goodbye |
| Voice.Heard | main.py:134-168 | a blank transcript changes nothing and causes no effect; a non-blank one is conversed about; the history only grows, by at most two messages |
| Voice.ListenCycle | main.py:124-172 | only the history and listening flag change; the history only grows, by at most two messages; any fault ends listening; a recording or transcription fault appends nothing; a blank transcript leaves the state unchanged; exactly one recording is made and it comes first |
| Upload.Accepts | main.py:201 | the guard of the single-shot path: nothing in flight and listening off; its consequences are stated by `Upload.Submit` |
| Upload.Fail | main.py:245-247 | the `except` of a submission: the fault is reported and `processing` cleared; its consequences are stated by `Upload.Process` and `Upload.Answer` |
| Upload.Completes | main.py:209-243 | a claimed clip runs to the `st.rerun()` exactly when it is saved, its transcript is not blank, a reply is produced and spoken, and the file is removed; stated by `Upload.Process` |
| Upload.Process | main.py:209-247 | after the clip is claimed, a fault clears `processing` and a save or transcription fault appends nothing; a blank transcript keeps `processing` set and appends nothing; the run ends early exactly on complete success (`Upload.Completes`), with `processing` cleared |
| Upload.Transcribed | main.py:214-243 | a blank transcript leaves the claimed state as is with no further effect; a non-blank one is answered |
| Upload.Answer | main.py:216-247 | the history becomes the exchange and `processing` is cleared on every way out; the listening flag is untouched even for a goodbye; the run ends early exactly when reply, synthesis and removal all succeed; the agent is asked exactly when the transcript is not a goodbye |
| Upload.Submit | main.py:201-247 | the clip is ignored, with no effect and no state change, while something is in flight, listening is on, or its digest equals the last one; otherwise the digest is recorded and `processing` set before the first external call (the save); the run ends early exactly when the clip is admitted and completes; the history only grows |
| Upload.SubmitIdempotent | main.py:203-207 | delivering the same clip twice in a row: the second delivery changes nothing and makes no call, however the first ended |
| Controller.ClearChat | main.py:252-256 | Clear Chat empties the history, forgets the digest and stops listening; `processing` and the camera fields are unchanged |
| Controller.AutoRerun | main.py:259-261 | the page asks for its next run only while the camera is on and listening is off; stated for whole runs by `Controller.Run` |
| Controller.MaybeListen | main.py:124-172 | a listening cycle, with its one recording, happens exactly in listening mode |
| Controller.MaybeSubmit | main.py:200-247 | a clip is saved exactly when one is held, the guard admits it and its digest differs from the last; the run ends early exactly when that clip completes; with `processing` set nothing happens |
| Controller.AudioAndReset | main.py:124-261 | at most one recording, only in listening mode; a clip is processed only when nothing was in flight and its digest is new; a completed submission ends the run with its digest kept; otherwise Clear Chat empties the history, forgets the digest and ends listening; the history only grows unless Clear Chat was clicked; camera fields are untouched; with no click, and no submission completing, the run asks for another exactly by the auto-rerun rule, whatever clip is held |
| Controller.ChatColumn | main.py:108-261 | the listening buttons act alone and end the run; otherwise as the audio part, including the Clear Chat reset and its pre-emption by a completed submission; camera fields are untouched |
| Controller.Run | main.py:67-261 | at most one camera poll, only with the camera on; at most one recording, only in listening mode; a clip is processed only when admitted and its digest is new; a completed submission ends the run before Clear Chat, and otherwise Clear Chat empties the history, forgets the digest and ends listening; the history only grows except on Clear Chat, by at most four messages; unless a camera button acts, the camera fields and view are those of the poll handling; `processing` is never cleared outside a submission; the camera buttons act alone; a run with no click in which no submission completes asks for the next one exactly when the camera is on and listening is off, whatever clip the widget holds; the invariant is preserved |
| Properties.InvariantAlongSeries | main.py:86-153 | every reachable state keeps the failure count bounded (at most 10 while the camera is on) and every reply right after a question |
| Properties.HistoryAppendOnly | main.py:136-231 | across any runs without a Clear Chat click, the old history is a prefix of the new one |
| Properties.ProcessingIsSticky | main.py:201-247 | once `processing` is set, every later run keeps it set and none processes a clip |
| Properties.BlankSubmissionLocksUpload | main.py:216-243 | a submitted clip with a blank transcript leaves `processing` set and appends nothing, and the single-shot path stays closed for every later run |
| Properties.PausedRunsKeepCamera | main.py:86 | with the camera off and no camera button clicked, any runs leave it off and its failure count alone |
| Properties.FailedRuns | main.py:86-103 | across runs with failing polls and no camera button, the count grows by one per run while it is at most 10, and the camera is off with count 11 once it would pass 10, whatever the chat side does |
| Properties.EleventhFailedRunDisables | main.py:94-97 | from a new session, ten runs with failing polls leave the camera on and the eleventh switches it off |
| Properties.ClearChatTail | main.py:252-256 | a Clear Chat run whose held clip was already handled resets the chat and processes nothing |
| Properties.ForgottenClipTail | main.py:201-207 | once the digest is forgotten, the held clip is saved and processed |
| Properties.ClearChatReplaysHeldClip | main.py:195-256 | Clear Chat empties the history, but the run after it processes the same held clip again |
| Properties.ListeningDoesNotLoopByItself | main.py:259-261 | a run with no click that leaves listening on does not ask for another run, whatever clip the widget holds |
| Properties.FirstPollFails | main.py:86-103 | from a new session, a failed first poll gives count 1, camera still on, and the "waiting" view |
| Properties.OrdinaryQuestion | main.py:134-168 | a non-goodbye question answered without fault appends exactly the question then the answer, asks the agent once, speaks the answer and keeps listening |
| Properties.FarewellCycle | main.py:141-153 | a goodbye transcript appends the question and the fixed farewell, ends listening and never asks the agent |
| Properties.WeatherIsOrdinary | main.py:134-147 | "What is the weather" passes the blank check and is not a goodbye |
| Properties.GoodbyeInASentence | main.py:142-144 | "Well, GoodBye then" passes the blank check and is a goodbye |

## Left out

- `get_ip_camera_frame` internals (HTTP request, timeout, status check,
  image decoding and colour conversion, main.py:23-37): reduced to a poll
  outcome, a frame or a failure with its message.
- `hashlib.md5`: a function parameter `hash`; collisions are not modelled.
- Speech recognition, the agent, speech synthesis and playback
  (`text_to_speech.py`, `tools.py`, and the `speech_to_text` and `ai_agent`
  modules, which are not part of this model): each stage is a parameter that
  returns a value or raises.
- Files: writing `recorded_audio.wav` and deleting the recordings
  (main.py:163-168, 239-240) appear only as effects in the trace
  (`SaveUpload`, `DiscardRecordings`, `RemoveUpload`); file existence is not
  tracked.
- Replaying `final.mp3` on every run (main.py:186-188) is left out entirely:
  it changes no session state and no effect stands for it.
- Rendering: page layout, spinners, chat display, info and warning texts,
  and the formatting of error messages. The model keeps the camera view, the
  raw error messages, and whether another run is requested.
- Disabled buttons: a click on a button that is disabled in the current
  state is treated as no click. Streamlit's own handling of clicks is not
  modelled.
- Interrupted runs: every run is modelled as running to its end. Streamlit
  may stop a run at its next `st.*` call when the user interacts meanwhile;
  such a run can leave states the model never reaches, for example a failure
  count of 11 with the camera still on (stopped at main.py:96, before
  main.py:97), or `processing` set with no error and no blank transcript
  (stopped between main.py:206 and 242). `Session.CameraCounterBounded`,
  `Properties.InvariantAlongSeries`, `Properties.FailedRuns`,
  `Properties.EleventhFailedRunDisables` and `Properties.ProcessingIsSticky`
  hold only for uninterrupted runs.
- `st.rerun()` after a successful submission (main.py:243) is taken to end
  the run. Streamlit's rerun signal is not an `Exception`, so the handler at
  main.py:245 does not catch it.
- Text.Lower: lowercases ASCII letters only; Python's `str.lower()` also
  handles non-ASCII letters.
- Text.Strip: strips the ASCII whitespace that Python's `str.isspace()`
  accepts (tab, LF, VT, FF, CR, 0x1C-0x1F, space); Unicode whitespace is
  not handled.
- A transcript of `None` is treated like the empty string; both fail the
  blank check.

=== FILE: basics.dfy ===
/** Small failure-carrying datatypes shared by the whole model. */
module Basics {

  /** An optional value; stands for Python's `None`-or-value fields. */
  datatype Option<+T> = None | Some(value: T)

  /** The outcome of one call into an external collaborator (recorder,
      speech recognition, the agent, speech synthesis, the file system):
      either it returned a value or it raised an exception with a message. */
  datatype Stage<+T> = Done(value: T) | Raised(message: string)
}

=== FILE: camera.dfy ===
/** The webcam half of a run (main.py lines 74-105): the Start/Pause buttons
    and the single poll with its failure counter and last-good-frame
    fallback. */
module Camera {
  import opened Basics
  import opened Session

  /** What `get_ip_camera_frame()` hands back: a decoded frame, or no frame
      and the reason (timeout, HTTP status, decode failure, transport error). */
  datatype PollOutcome = Frame(image: Image) | Failed(reason: string)

  /** What the webcam placeholder shows after this run's camera section. */
  datatype CameraView =
    | Live(image: Image)                     // the frame just fetched
    | Retrying(image: Image, failures: nat)  // the last good frame, "Retrying... (n/10)"
    | Waiting                                // no frame yet, "Waiting for camera feed..."
    | ConnectionLost(reason: string)         // hard error, camera switched off
    | Paused                                 // camera off, no poll made

  datatype CameraResult = CameraResult(state: SessionState, view: CameraView, effects: seq<Effect>)

  /** "Start Camera": turns the camera on and forgets past failures; no other
      field is touched. */
  function StartCamera(s: SessionState): (r: SessionState)
    ensures r.cameraActive && r.cameraErrorCount == 0
    ensures r.(cameraActive := s.cameraActive, cameraErrorCount := s.cameraErrorCount) == s
  {
    s.(cameraActive := true, cameraErrorCount := 0)
  }

  /** "Pause Camera": turns the camera off and changes nothing else; the
      failure count and last frame are kept. */
  function PauseCamera(s: SessionState): (r: SessionState)
    ensures !r.cameraActive
    ensures r.(cameraActive := s.cameraActive) == s
  {
    s.(cameraActive := false)
  }

  /** The camera section of a run. With the camera off nothing is polled.
      Otherwise exactly one poll is made: a frame is kept as the last good
      frame and clears the counter; a failure keeps the last frame, counts
      one more failure, and switches the camera off exactly when the count
      passes the threshold. Only camera fields change. */
  function CameraSection(s: SessionState, poll: PollOutcome): (r: CameraResult)
    ensures !s.cameraActive ==> r == CameraResult(s, Paused, [])
    ensures s.cameraActive ==> r.effects == [PollCamera]
    ensures r.state.chatHistory == s.chatHistory
    ensures r.state.listeningActive == s.listeningActive
    ensures r.state.processing == s.processing
    ensures r.state.lastAudioHash == s.lastAudioHash
    ensures s.cameraActive && poll.Frame? ==>
      && r.state.lastFrame == Some(poll.image)
      && r.state.cameraErrorCount == 0
      && r.state.cameraActive
      && r.view == Live(poll.image)
    ensures s.cameraActive && poll.Failed? ==>
      && r.state.lastFrame == s.lastFrame
      && r.state.cameraErrorCount == s.cameraErrorCount + 1
      && (r.state.cameraActive <==> r.state.cameraErrorCount <= MaxCameraErrors)
      && (!r.state.cameraActive ==> r.view == ConnectionLost(poll.reason))
      && (r.state.cameraActive && s.lastFrame.Some? ==>
            r.view == Retrying(s.lastFrame.value, r.state.cameraErrorCount))
      && (r.state.cameraActive && s.lastFrame.None? ==> r.view == Waiting)
    ensures CameraCounterBounded(s) ==> CameraCounterBounded(r.state)
  {
    if !s.cameraActive then
      CameraResult(s, Paused, [])
    else
      match poll
      case Frame(image) =>
        CameraResult(s.(lastFrame := Some(image), cameraErrorCount := 0), Live(image), [PollCamera])
      case Failed(reason) =>
        var count := s.cameraErrorCount + 1;
        if count > MaxCameraErrors then
          CameraResult(s.(cameraErrorCount := count, cameraActive := false),
                       ConnectionLost(reason), [PollCamera])
        else
          var view := match s.lastFrame
                      case Some(f) => Retrying(f, count)
                      case None => Waiting;
          CameraResult(s.(cameraErrorCount := count), view, [PollCamera])
  }

  /** The camera state after a sequence of runs that only poll, one outcome
      per run (a run with the camera off makes no poll and skips its
      outcome). */
  function PollSeries(s: SessionState, polls: seq<PollOutcome>): SessionState
    decreases |polls|
  {
    if polls == [] then s else PollSeries(CameraSection(s, polls[0]).state, polls[1..])
  }

  predicate AllFailed(polls: seq<PollOutcome>) {
    forall i :: 0 <= i < |polls| ==> polls[i].Failed?
  }

  /** Consecutive failures: starting from an active camera with `c` failures
      on record, `n` further failures keep the camera on with count `c + n`
      as long as that is at most the threshold; once it would pass it, the
      camera is off with count one past the threshold. The last good frame
      survives throughout. */
  lemma {:induction false} ConsecutiveFailures(s: SessionState, polls: seq<PollOutcome>)
    requires s.cameraActive && s.cameraErrorCount <= MaxCameraErrors
    requires AllFailed(polls)
    ensures PollSeries(s, polls).lastFrame == s.lastFrame
    ensures s.cameraErrorCount + |polls| <= MaxCameraErrors ==>
      PollSeries(s, polls).cameraActive && PollSeries(s, polls).cameraErrorCount == s.cameraErrorCount + |polls|
    ensures s.cameraErrorCount + |polls| > MaxCameraErrors ==>
      !PollSeries(s, polls).cameraActive && PollSeries(s, polls).cameraErrorCount == MaxCameraErrors + 1
    decreases |polls|
  {
    if polls != [] {
      var s1 := CameraSection(s, polls[0]).state;
      assert AllFailed(polls[1..]) by {
        forall i | 0 <= i < |polls[1..]| ensures polls[1..][i].Failed? {
          assert polls[1..][i] == polls[i + 1];
        }
      }
      if s1.cameraActive {
        ConsecutiveFailures(s1, polls[1..]);
      } else {
        PausedSeriesIsIdle(s1, polls[1..]);
      }
    }
  }

  /** With the camera off, polls are never made, so nothing changes. */
  lemma {:induction false} PausedSeriesIsIdle(s: SessionState, polls: seq<PollOutcome>)
    requires !s.cameraActive
    ensures PollSeries(s, polls) == s
    decreases |polls|
  {
    if polls != [] {
      PausedSeriesIsIdle(CameraSection(s, polls[0]).state, polls[1..]);
    }
  }

  /** The testable scenario: from a fresh start with the camera on, failures
      1 to 10 leave it on and the 11th switches it off. */
  lemma EleventhFailureDisables(s: SessionState, polls: seq<PollOutcome>)
    requires s.cameraActive && s.cameraErrorCount == 0
    requires AllFailed(polls) && 1 <= |polls| <= MaxCameraErrors + 1
    ensures PollSeries(s, polls).cameraActive <==> |polls| <= MaxCameraErrors
    ensures PollSeries(s, polls[..|polls| - 1]).cameraActive
  {
    ConsecutiveFailures(s, polls);
    var prefix := polls[..|polls| - 1];
    assert AllFailed(prefix) by {
      forall i | 0 <= i < |prefix| ensures prefix[i].Failed? {
        assert prefix[i] == polls[i];
      }
    }
    ConsecutiveFailures(s, prefix);
  }
}

=== FILE: controller.dfy ===
/** One complete run of the page script (main.py, top to bottom), as a pure
    transition of the session state. A button click is the event that
    triggered the run; the clip held by the recording widget persists from
    run to run; every external outcome of the run is a parameter. */
module Controller {
  import opened Basics
  import opened Session
  import opened Camera
  import opened Voice
  import opened Upload

  /** The button whose click triggered this run, if any. */
  datatype Click =
    | NoClick
    | StartCameraClick
    | PauseCameraClick
    | StartListeningClick
    | StopListeningClick
    | ClearChatClick

  /** How everything outside the program turns out during one run. */
  datatype World = World(poll: PollOutcome, listen: ListenOutcomes, upload: UploadOutcomes)

  /** The session after the run, what the webcam placeholder shows (nothing
      when the run stopped before reaching it), the effects in order, the
      error messages shown, and whether another run is requested. */
  datatype RunResult = RunResult(
    state: SessionState,
    camera: Option<CameraView>,
    effects: seq<Effect>,
    errors: seq<string>,
    rerun: bool)

  /** "Clear Chat": empties the history, forgets the last clip's digest and
      stops listening. `processing` and the camera fields are untouched. */
  function ClearChat(s: SessionState): (r: SessionState)
    ensures r.chatHistory == [] && r.lastAudioHash == None && !r.listeningActive
    ensures r.processing == s.processing
    ensures r.cameraActive == s.cameraActive && r.lastFrame == s.lastFrame
    ensures r.cameraErrorCount == s.cameraErrorCount
  {
    s.(chatHistory := [], lastAudioHash := None, listeningActive := false)
  }

  /** Line 259: the page schedules its own next run only while the camera is
      on and listening is off. */
  predicate AutoRerun(s: SessionState) {
    s.cameraActive && !s.listeningActive
  }

  function ErrorOf(e: Option<string>): seq<string> {
    match e
    case Some(m) => [m]
    case None => []
  }

  /** A run. The Start/Pause Camera buttons act before anything else and end
      the run; otherwise the camera is polled once (if on) and the chat half
      of the page runs. A click on a button that is disabled in the current
      state has no effect. */
  function Run(s: SessionState, click: Click, audio: Option<Bytes>, hash: Bytes -> Digest, w: World): (r: RunResult)
    // at most one camera poll, and only when the camera was on
    ensures AtMostOnce(r.effects, PollCamera)
    ensures PollCamera in r.effects ==> s.cameraActive
    // at most one recording, and only in listening mode
    ensures AtMostOnce(r.effects, RecordAudio)
    ensures RecordAudio in r.effects ==> s.listeningActive
    // a clip is processed only when the guard admits it and its digest is new
    ensures SaveUpload in r.effects ==> audio.Some? && !s.processing
    ensures SaveUpload in r.effects ==> s.lastAudioHash != Some(hash(audio.value))
    // a completed submission ends the run, before Clear Chat is reached
    ensures SaveUpload in r.effects && Completes(w.upload) ==>
      r.rerun && r.state.lastAudioHash == Some(hash(audio.value)) && !r.state.processing
    // otherwise Clear Chat empties the history, forgets the digest and
    // ends listening
    ensures click == ClearChatClick && !(SaveUpload in r.effects && Completes(w.upload)) ==>
      r.state.chatHistory == [] && r.state.lastAudioHash == None && !r.state.listeningActive && r.rerun
    // the history only grows, except when Clear Chat empties it
    ensures click != ClearChatClick ==> s.chatHistory <= r.state.chatHistory
    ensures |r.state.chatHistory| <= |s.chatHistory| + 4
    // the two camera buttons act alone
    ensures click == StartCameraClick && !s.cameraActive ==>
      r == RunResult(StartCamera(s), None, [], [], true)
    ensures click == PauseCameraClick && s.cameraActive ==>
      r == RunResult(PauseCamera(s), None, [], [], true)
    // any other run leaves the camera fields as the poll handling set them
    ensures !(click == StartCameraClick && !s.cameraActive) && !(click == PauseCameraClick && s.cameraActive) ==>
      var cam := CameraSection(s, w.poll);
      && r.camera == Some(cam.view)
      && r.state.cameraActive == cam.state.cameraActive
      && r.state.cameraErrorCount == cam.state.cameraErrorCount
      && r.state.lastFrame == cam.state.lastFrame
    // only a submission can clear the in-flight flag
    ensures s.processing ==> r.state.processing
    // a run no click triggered, and in which no submission completed, asks
    // for the next one exactly when the camera is on and listening is off
    ensures click == NoClick && !(SaveUpload in r.effects && Completes(w.upload)) ==>
      (r.rerun <==> r.state.cameraActive && !r.state.listeningActive)
    // the reachable-state invariant is kept
    ensures Invariant(s) ==> Invariant(r.state)
  {
    if click == StartCameraClick && !s.cameraActive then
      RunResult(StartCamera(s), None, [], [], true)
    else if click == PauseCameraClick && s.cameraActive then
      RunResult(PauseCamera(s), None, [], [], true)
    else
      var cam := CameraSection(s, w.poll);
      var chat := ChatColumn(cam.state, click, audio, hash, w);
      var effects := cam.effects + chat.effects;
      AtMostOnceJoin(cam.effects, chat.effects, PollCamera);
      AtMostOnceJoin(cam.effects, chat.effects, RecordAudio);
      chat.(camera := Some(cam.view), effects := effects)
  }

  /** The chat half of a run (lines 111-261), entered with the camera section
      already done. The Start/Stop Listening buttons act and end the run;
      otherwise the listening cycle and the submission run. Camera fields
      are never touched here. */
  function ChatColumn(s: SessionState, click: Click, audio: Option<Bytes>, hash: Bytes -> Digest, w: World): (r: RunResult)
    ensures r.camera == None
    ensures PollCamera !in r.effects
    ensures AtMostOnce(r.effects, RecordAudio)
    ensures RecordAudio in r.effects ==> s.listeningActive
    ensures SaveUpload in r.effects ==> audio.Some? && !s.processing
    ensures click != ClearChatClick ==> s.chatHistory <= r.state.chatHistory
    ensures |r.state.chatHistory| <= |s.chatHistory| + 4
    ensures r.state.cameraActive == s.cameraActive && r.state.cameraErrorCount == s.cameraErrorCount
    ensures r.state.lastFrame == s.lastFrame
    ensures RepliesFollowQuestions(s.chatHistory) ==> RepliesFollowQuestions(r.state.chatHistory)
    ensures s.processing ==> r.state.processing
    ensures SaveUpload in r.effects ==> s.lastAudioHash != Some(hash(audio.value))
    ensures click == NoClick && !(SaveUpload in r.effects && Completes(w.upload)) ==>
      r.rerun == AutoRerun(r.state)
    ensures SaveUpload in r.effects && Completes(w.upload) ==>
      r.rerun && r.state.lastAudioHash == Some(hash(audio.value)) && !r.state.processing
    ensures click == ClearChatClick && !(SaveUpload in r.effects && Completes(w.upload)) ==>
      r.state.chatHistory == [] && r.state.lastAudioHash == None && !r.state.listeningActive && r.rerun
    ensures click == StartListeningClick && !s.listeningActive ==>
      r == RunResult(StartListening(s), None, [], [], true)
    ensures click == StopListeningClick && s.listeningActive ==>
      r == RunResult(StopListening(s), None, [], [], true)
  {
    if click == StartListeningClick && !s.listeningActive then
      RunResult(StartListening(s), None, [], [], true)
    else if click == StopListeningClick && s.listeningActive then
      RunResult(StopListening(s), None, [], [], true)
    else
      AudioAndReset(s, click, audio, hash, w)
  }

  /** Lines 124-172: a listening cycle runs only in listening mode. */
  function MaybeListen(s: SessionState, o: ListenOutcomes): (r: CycleResult)
    ensures r.state == s.(chatHistory := r.state.chatHistory, listeningActive := r.state.listeningActive)
    ensures s.chatHistory <= r.state.chatHistory && |r.state.chatHistory| <= |s.chatHistory| + 2
    ensures RepliesFollowQuestions(s.chatHistory) ==> RepliesFollowQuestions(r.state.chatHistory)
    ensures PollCamera !in r.effects && SaveUpload !in r.effects && AtMostOnce(r.effects, RecordAudio)
    ensures RecordAudio in r.effects <==> s.listeningActive
    ensures !s.listeningActive ==> r == CycleResult(s, [], None)
  {
    if s.listeningActive then
      var c := ListenCycle(s, o);
      OnlyFirst(c.effects, RecordAudio);
      c
    else
      CycleResult(s, [], None)
  }

  /** Lines 200-247: the held clip, if any, is submitted. */
  function MaybeSubmit(s: SessionState, audio: Option<Bytes>, hash: Bytes -> Digest, o: UploadOutcomes): (r: SubmitResult)
    ensures r.state == s.(chatHistory := r.state.chatHistory, processing := r.state.processing,
                          lastAudioHash := r.state.lastAudioHash)
    ensures s.chatHistory <= r.state.chatHistory && |r.state.chatHistory| <= |s.chatHistory| + 2
    ensures RepliesFollowQuestions(s.chatHistory) ==> RepliesFollowQuestions(r.state.chatHistory)
    ensures PollCamera !in r.effects && RecordAudio !in r.effects
    ensures SaveUpload in r.effects <==>
      audio.Some? && Accepts(s) && s.lastAudioHash != Some(hash(audio.value))
    ensures r.rerun <==> SaveUpload in r.effects && Completes(o)
    ensures r.state.processing ==> s.processing || SaveUpload in r.effects
    ensures s.processing ==> r.state == s && r.effects == []
    ensures audio.None? ==> r == SubmitResult(s, [], None, false)
  {
    if audio.Some? then Submit(s, audio.value, hash, o) else SubmitResult(s, [], None, false)
  }

  /** Lines 124-261: one listening cycle if listening is on, then the held
      clip (if any) is submitted, and a complete success ends the run; then
      Clear Chat acts and ends the run; otherwise the run ends by the
      auto-rerun rule. */
  function AudioAndReset(s: SessionState, click: Click, audio: Option<Bytes>, hash: Bytes -> Digest, w: World): (r: RunResult)
    ensures r.camera == None
    ensures PollCamera !in r.effects
    ensures AtMostOnce(r.effects, RecordAudio)
    ensures RecordAudio in r.effects ==> s.listeningActive
    ensures SaveUpload in r.effects ==> audio.Some? && !s.processing
    ensures click != ClearChatClick ==> s.chatHistory <= r.state.chatHistory
    ensures |r.state.chatHistory| <= |s.chatHistory| + 4
    ensures r.state.cameraActive == s.cameraActive && r.state.cameraErrorCount == s.cameraErrorCount
    ensures r.state.lastFrame == s.lastFrame
    ensures RepliesFollowQuestions(s.chatHistory) ==> RepliesFollowQuestions(r.state.chatHistory)
    ensures r.state.processing ==> s.processing || SaveUpload in r.effects
    ensures s.processing ==> r.state.processing
    ensures SaveUpload in r.effects ==> s.lastAudioHash != Some(hash(audio.value))
    ensures click == NoClick && !(SaveUpload in r.effects && Completes(w.upload)) ==>
      r.rerun == AutoRerun(r.state)
    // a completed submission ends the run before Clear Chat is reached
    ensures SaveUpload in r.effects && Completes(w.upload) ==>
      r.rerun && r.state.lastAudioHash == Some(hash(audio.value)) && !r.state.processing
    ensures click == ClearChatClick && !(SaveUpload in r.effects && Completes(w.upload)) ==>
      r.state.chatHistory == [] && r.state.lastAudioHash == None && !r.state.listeningActive && r.rerun
  {
    var cycle := MaybeListen(s, w.listen);
    var sub := MaybeSubmit(cycle.state, audio, hash, w.upload);
    var s2 := sub.state;
    var effects := cycle.effects + sub.effects;
    var errors := ErrorOf(cycle.error) + ErrorOf(sub.error);
    AtMostOnceJoin(cycle.effects, sub.effects, RecordAudio);
    if sub.rerun then
      RunResult(s2, None, effects, errors, true)
    else if click == ClearChatClick then
      RunResult(ClearChat(s2), None, effects, errors, true)
    else
      RunResult(s2, None, effects, errors, AutoRerun(s2))
  }
}

=== FILE: properties.dfy ===
/** Properties of whole sessions: sequences of runs, and concrete
    scenarios. */
module Properties {
  import opened Basics
  import opened Text
  import opened Session
  import opened Camera
  import opened Voice
  import opened Upload
  import opened Controller

  /** What drives one run: the click, the clip the widget holds, and the
      outside world's outcomes. */
  datatype Input = Input(click: Click, audio: Option<Bytes>, world: World)

  /** The session after the runs `inputs`, one after the other. */
  function RunSeries(s: SessionState, hash: Bytes -> Digest, inputs: seq<Input>): SessionState
    decreases |inputs|
  {
    if inputs == [] then s
    else
      var i := inputs[0];
      RunSeries(Run(s, i.click, i.audio, hash, i.world).state, hash, inputs[1..])
  }

  /** No run along `inputs` saves and processes a clip. */
  predicate NoUploadAlong(s: SessionState, hash: Bytes -> Digest, inputs: seq<Input>)
    decreases |inputs|
  {
    inputs == [] ||
      var i := inputs[0];
      var r := Run(s, i.click, i.audio, hash, i.world);
      SaveUpload !in r.effects && NoUploadAlong(r.state, hash, inputs[1..])
  }

  predicate NoClearChat(inputs: seq<Input>) {
    forall k :: 0 <= k < |inputs| ==> inputs[k].click != ClearChatClick
  }

  /** The runs after the first are the later elements of `inputs`, so every
      property each run has holds of the remaining runs too. */
  lemma InputsTail(inputs: seq<Input>)
    requires inputs != []
    ensures forall k :: 0 <= k < |inputs| - 1 ==> inputs[1..][k] == inputs[k + 1]
  {
  }

  /** Every state a session can reach satisfies the invariant: the camera
      failure counter stays bounded and every reply follows its question. */
  lemma {:induction false} InvariantAlongSeries(s: SessionState, hash: Bytes -> Digest, inputs: seq<Input>)
    requires Invariant(s)
    ensures Invariant(RunSeries(s, hash, inputs))
    decreases |inputs|
  {
    if inputs != [] {
      var i := inputs[0];
      InvariantAlongSeries(Run(s, i.click, i.audio, hash, i.world).state, hash, inputs[1..]);
    }
  }

  /** Without a Clear Chat click, the history is append-only across any
      number of runs. */
  lemma {:induction false} HistoryAppendOnly(s: SessionState, hash: Bytes -> Digest, inputs: seq<Input>)
    requires NoClearChat(inputs)
    ensures s.chatHistory <= RunSeries(s, hash, inputs).chatHistory
    decreases |inputs|
  {
    if inputs != [] {
      var i := inputs[0];
      var s1 := Run(s, i.click, i.audio, hash, i.world).state;
      InputsTail(inputs);
      HistoryAppendOnly(s1, hash, inputs[1..]);
    }
  }

  /** Once the in-flight flag is set, no later run clears it or processes a
      clip: nothing outside a submission that the flag itself blocks ever
      resets it, Clear Chat included. */
  lemma {:induction false} ProcessingIsSticky(s: SessionState, hash: Bytes -> Digest, inputs: seq<Input>)
    requires s.processing
    ensures RunSeries(s, hash, inputs).processing
    ensures NoUploadAlong(s, hash, inputs)
    decreases |inputs|
  {
    if inputs != [] {
      var i := inputs[0];
      ProcessingIsSticky(Run(s, i.click, i.audio, hash, i.world).state, hash, inputs[1..]);
    }
  }

  /** A submitted clip whose transcript is blank leaves `processing` set, so
      the single-shot path stays closed for every later run of the session. */
  lemma BlankSubmissionLocksUpload(s: SessionState, audio: Bytes, hash: Bytes -> Digest, o: UploadOutcomes,
                                   later: seq<Input>)
    requires Accepts(s) && s.lastAudioHash != Some(hash(audio))
    requires o.save.Done? && o.transcribe.Done? && !HasContent(o.transcribe.value)
    ensures var r := Submit(s, audio, hash, o);
            && r.state.processing && r.state.chatHistory == s.chatHistory && r.error == None
            && RunSeries(r.state, hash, later).processing
            && NoUploadAlong(r.state, hash, later)
  {
    ProcessingIsSticky(Submit(s, audio, hash, o).state, hash, later);
  }

  /** Runs in which nobody clicks a camera button. */
  predicate NoCameraClick(inputs: seq<Input>) {
    forall k :: 0 <= k < |inputs| ==>
      inputs[k].click != StartCameraClick && inputs[k].click != PauseCameraClick
  }

  /** Runs in which nobody clicks a camera button and every poll fails. */
  predicate FailingRuns(inputs: seq<Input>) {
    NoCameraClick(inputs) && forall k :: 0 <= k < |inputs| ==> inputs[k].world.poll.Failed?
  }

  /** With the camera off and no camera button clicked, runs leave the
      camera off and its failure count alone, whatever the chat side does. */
  lemma {:induction false} PausedRunsKeepCamera(s: SessionState, hash: Bytes -> Digest, inputs: seq<Input>)
    requires !s.cameraActive && NoCameraClick(inputs)
    ensures !RunSeries(s, hash, inputs).cameraActive
    ensures RunSeries(s, hash, inputs).cameraErrorCount == s.cameraErrorCount
    decreases |inputs|
  {
    if inputs != [] {
      var i := inputs[0];
      InputsTail(inputs);
      PausedRunsKeepCamera(Run(s, i.click, i.audio, hash, i.world).state, hash, inputs[1..]);
    }
  }

  /** Consecutive failed runs, whatever else happens in them: from an active
      camera with `c` failures on record, `n` runs whose polls fail keep the
      camera on with count `c + n` while that is at most the threshold, and
      leave it off with count one past the threshold once it would pass it. */
  lemma {:induction false} FailedRuns(s: SessionState, hash: Bytes -> Digest, inputs: seq<Input>)
    requires s.cameraActive && s.cameraErrorCount <= MaxCameraErrors
    requires FailingRuns(inputs)
    ensures s.cameraErrorCount + |inputs| <= MaxCameraErrors ==>
      RunSeries(s, hash, inputs).cameraActive
      && RunSeries(s, hash, inputs).cameraErrorCount == s.cameraErrorCount + |inputs|
    ensures s.cameraErrorCount + |inputs| > MaxCameraErrors ==>
      !RunSeries(s, hash, inputs).cameraActive
      && RunSeries(s, hash, inputs).cameraErrorCount == MaxCameraErrors + 1
    decreases |inputs|
  {
    if inputs != [] {
      var i := inputs[0];
      var s1 := Run(s, i.click, i.audio, hash, i.world).state;
      InputsTail(inputs);
      if s1.cameraActive {
        FailedRuns(s1, hash, inputs[1..]);
      } else {
        PausedRunsKeepCamera(s1, hash, inputs[1..]);
      }
    }
  }

  /** From a new session, ten failed runs leave the camera on and the
      eleventh switches it off. */
  lemma EleventhFailedRunDisables(hash: Bytes -> Digest, inputs: seq<Input>)
    requires FailingRuns(inputs) && |inputs| == MaxCameraErrors + 1
    ensures RunSeries(Initial(), hash, inputs[..MaxCameraErrors]).cameraActive
    ensures !RunSeries(Initial(), hash, inputs).cameraActive
  {
    var first := inputs[..MaxCameraErrors];
    assert FailingRuns(first) by {
      forall k | 0 <= k < |first|
        ensures first[k].click != StartCameraClick && first[k].click != PauseCameraClick
        ensures first[k].world.poll.Failed?
      {
        assert first[k] == inputs[k];
      }
    }
    FailedRuns(Initial(), hash, first);
    FailedRuns(Initial(), hash, inputs);
  }

  /** The tail of a Clear Chat run whose held clip was already handled: the
      reset acts, and nothing is processed. */
  lemma ClearChatTail(s: SessionState, audio: Bytes, hash: Bytes -> Digest, w: World)
    requires !s.processing && !s.listeningActive && s.lastAudioHash == Some(hash(audio))
    ensures var r := AudioAndReset(s, ClearChatClick, Some(audio), hash, w);
            r.state == ClearChat(s) && r.effects == [] && r.rerun
  {
  }

  /** The tail of a run after the digest was forgotten: the held clip is
      saved and processed. */
  lemma ForgottenClipTail(s: SessionState, audio: Bytes, hash: Bytes -> Digest, w: World)
    requires !s.processing && !s.listeningActive && s.lastAudioHash == None
    ensures SaveUpload in AudioAndReset(s, NoClick, Some(audio), hash, w).effects
  {
  }

  /** Clear Chat forgets the last clip's digest while the widget still holds
      the clip: the run after the reset processes that same clip again. */
  lemma ClearChatReplaysHeldClip(s: SessionState, audio: Bytes, hash: Bytes -> Digest, w1: World, w2: World)
    requires !s.processing && !s.listeningActive && s.lastAudioHash == Some(hash(audio))
    ensures var r1 := Run(s, ClearChatClick, Some(audio), hash, w1);
            && r1.state.chatHistory == [] && r1.rerun
            && SaveUpload !in r1.effects
            && SaveUpload in Run(r1.state, NoClick, Some(audio), hash, w2).effects
  {
    var cam := CameraSection(s, w1.poll);
    ClearChatTail(cam.state, audio, hash, w1);
    var r1 := Run(s, ClearChatClick, Some(audio), hash, w1);
    assert r1.state == ClearChat(cam.state);
    var cam2 := CameraSection(r1.state, w2.poll);
    ForgottenClipTail(cam2.state, audio, hash, w2);
  }

  /** While listening stays on, a run that no click triggered does not
      schedule another one, whatever clip the widget holds: the next
      listening cycle waits for the next interaction with the page. */
  lemma ListeningDoesNotLoopByItself(s: SessionState, audio: Option<Bytes>, hash: Bytes -> Digest, w: World)
    ensures var r := Run(s, NoClick, audio, hash, w);
            r.state.listeningActive ==> !r.rerun
  {
  }

  // ---------------------------------------------------------------------
  // Scenarios
  // ---------------------------------------------------------------------

  /** The camera source is unreachable on the very first poll: one failure is
      counted, the camera stays on, and the placeholder waits for a feed. */
  lemma FirstPollFails(hash: Bytes -> Digest, w: World)
    requires w.poll.Failed?
    ensures var r := Run(Initial(), NoClick, None, hash, w);
            && r.state.cameraErrorCount == 1 && r.state.cameraActive
            && r.camera == Some(Waiting)
  {
  }

  /** An ordinary question in listening mode, answered without fault: one
      agent call, exactly two messages (question, then answer), a synthesized
      reply, the recordings discarded, and listening still on. */
  lemma OrdinaryQuestion(s: SessionState, q: string, answer: string)
    requires HasContent(q) && !IsFarewell(q)
    ensures var r := ListenCycle(s, ListenOutcomes(Done(()), Done(q), Done(answer), Done(())));
            && r.state.chatHistory == s.chatHistory + [ChatMessage(User, q), ChatMessage(Assistant, answer)]
            && r.state.listeningActive == s.listeningActive
            && r.effects == [RecordAudio, Transcribe, AskAgent(q), Synthesize(answer), DiscardRecordings]
  {
  }

  /** A transcript that says goodbye ends listening with the fixed farewell,
      whatever the agent would have done, and the agent is never asked. */
  lemma FarewellCycle(s: SessionState, q: string, agent: Stage<string>, speak: Stage<()>)
    requires HasContent(q) && IsFarewell(q)
    ensures var r := ListenCycle(s, ListenOutcomes(Done(()), Done(q), agent, speak));
            && r.state.chatHistory == s.chatHistory + [ChatMessage(User, q), ChatMessage(Assistant, FarewellReply)]
            && !r.state.listeningActive
            && AskAgent(q) !in r.effects
  {
  }

  /** A plain weather question is an ordinary question. */
  lemma WeatherIsOrdinary(q: string)
    requires q == "What is the weather"
    ensures HasContent(q) && !IsFarewell(q)
  {
    WithoutGNoFarewell(q);
  }

  /** A goodbye in the middle of a sentence, in mixed case, is detected. */
  lemma GoodbyeInASentence(q: string)
    requires q == "Well, GoodBye then"
    ensures HasContent(q) && IsFarewell(q)
  {
    var token := "GoodBye";
    assert IsFarewell(token) by {
      assert Lower(token) == FarewellToken;
    }
    FarewellInAnyContext("Well, ", token, " then");
    assert "Well, " + token == "Well, GoodBye";
    assert "Well, GoodBye" + " then" == q;
  }
}

=== FILE: session.dfy ===
/** The session state every script run reads and writes (main.py's
    `st.session_state`), the chat messages it keeps, and the external effects
    a run can cause. */
module Session {
  import opened Basics

  newtype byte = b: int | 0 <= b < 256

  /** Raw audio bytes as delivered by the recording widget. */
  type Bytes = seq<byte>

  /** The hex digest `hashlib.md5(bytes).hexdigest()`. */
  type Digest = string

  /** A decoded RGB camera frame. */
  datatype Image = Image(rgb: Bytes)

  datatype Role = User | Assistant

  datatype ChatMessage = ChatMessage(role: Role, content: string)

  /** The seven session-state fields. */
  datatype SessionState = SessionState(
    chatHistory: seq<ChatMessage>,
    cameraActive: bool,
    listeningActive: bool,
    lastAudioHash: Option<Digest>,
    processing: bool,
    lastFrame: Option<Image>,
    cameraErrorCount: nat)

  /** Consecutive failed polls tolerated before the camera is switched off. */
  const MaxCameraErrors: nat := 10

  /** Everything a run does outside the session state, in order. */
  datatype Effect =
    | PollCamera                  // get_ip_camera_frame()
    | RecordAudio                 // record_audio(file_path=AUDIO_FILEPATH)
    | SaveUpload                  // write the submitted bytes to recorded_audio.wav
    | Transcribe                  // transcribe_with_groq(...)
    | AskAgent(query: string)     // ask_agent(user_query=...)
    | Synthesize(text: string)    // text_to_speech_with_elevenlabs(...)
    | DiscardRecordings           // best-effort removal, errors swallowed
    | RemoveUpload                // os.remove("recorded_audio.wav")

  /** `e` occurs at most once in the trace `effects`. */
  predicate AtMostOnce(effects: seq<Effect>, e: Effect) {
    forall i, j :: 0 <= i < j < |effects| && effects[i] == e ==> effects[j] != e
  }

  /** A trace whose tail lacks `e` has it at most once. */
  lemma OnlyFirst(effects: seq<Effect>, e: Effect)
    requires effects != [] && e !in effects[1..]
    ensures AtMostOnce(effects, e)
  {
  }

  /** Joining a trace with at most one `e` to a trace without any keeps at
      most one. */
  lemma AtMostOnceJoin(a: seq<Effect>, b: seq<Effect>, e: Effect)
    requires (AtMostOnce(a, e) && e !in b) || (e !in a && AtMostOnce(b, e))
    ensures AtMostOnce(a + b, e)
  {
  }

  /** Every assistant message directly follows a user message: replies are
      only ever appended right after the question they answer. */
  predicate RepliesFollowQuestions(h: seq<ChatMessage>) {
    (|h| > 0 ==> h[0].role == User)
    && forall i :: 0 < i < |h| ==> h[i].role == Assistant ==> h[i - 1].role == User
  }

  /** The failure counter never passes the threshold while the camera is on,
      and never goes more than one past it. */
  predicate CameraCounterBounded(s: SessionState) {
    s.cameraErrorCount <= MaxCameraErrors + 1
    && (s.cameraActive ==> s.cameraErrorCount <= MaxCameraErrors)
  }

  /** What holds of every state reachable from the initial one. */
  predicate Invariant(s: SessionState) {
    CameraCounterBounded(s) && RepliesFollowQuestions(s.chatHistory)
  }

  /** The state a new session starts in: camera on, nothing heard yet,
      nothing in flight. */
  function Initial(): (s: SessionState)
    ensures Invariant(s)
    ensures s.cameraActive && !s.listeningActive && !s.processing
    ensures s.chatHistory == [] && s.lastAudioHash == None && s.lastFrame == None
    ensures s.cameraErrorCount == 0
  {
    SessionState([], true, false, None, false, None, 0)
  }

  /** Appending a question, or a question and its reply, keeps replies after
      their questions. */
  lemma AppendExchange(h: seq<ChatMessage>, q: string, a: string)
    ensures RepliesFollowQuestions(h) ==> RepliesFollowQuestions(h + [ChatMessage(User, q)])
    ensures RepliesFollowQuestions(h) ==>
      RepliesFollowQuestions(h + [ChatMessage(User, q), ChatMessage(Assistant, a)])
  {
  }
}

=== FILE: text.dfy ===
/** The string handling the session logic relies on: Python's `str.strip()`
    truthiness test for blank transcripts, `str.lower()`, and the substring
    test `"goodbye" in text.lower()` that detects the end of a conversation.
    Characters are treated as ASCII: lowercasing maps only `A`-`Z`, and the
    whitespace set is the ASCII part of Python's `str.isspace()`. */
module Text {

  /** ASCII characters Python's `str.isspace()` accepts: TAB, LF, VT, FF, CR,
      the four information separators 0x1C-0x1F, and SPACE. */
  predicate IsSpace(c: char) {
    var n := c as int;
    n == 32 || 9 <= n <= 13 || 28 <= n <= 31
  }

  // ---------------------------------------------------------------------
  // Stripping
  // ---------------------------------------------------------------------

  /** Drops leading whitespace. */
  function TrimStart(s: string): (r: string)
    ensures |r| <= |s| && r == s[|s| - |r|..]
    ensures forall i :: 0 <= i < |s| - |r| ==> IsSpace(s[i])
    ensures r == [] || !IsSpace(r[0])
    decreases |s|
  {
    if |s| > 0 && IsSpace(s[0]) then TrimStart(s[1..]) else s
  }

  /** Drops trailing whitespace. */
  function TrimEnd(s: string): (r: string)
    ensures |r| <= |s| && r == s[..|r|]
    ensures forall i :: |r| <= i < |s| ==> IsSpace(s[i])
    ensures r == [] || !IsSpace(r[|r| - 1])
    decreases |s|
  {
    if |s| > 0 && IsSpace(s[|s| - 1]) then TrimEnd(s[..|s| - 1]) else s
  }

  /** `r` is `s` with only whitespace removed before index `lo` and after
      `lo + |r|`. */
  predicate CutFrom(s: string, r: string, lo: int) {
    && 0 <= lo && lo + |r| <= |s| && r == s[lo..lo + |r|]
    && (forall i :: 0 <= i < lo ==> IsSpace(s[i]))
    && (forall i :: lo + |r| <= i < |s| ==> IsSpace(s[i]))
  }

  /** Python's `s.strip()`: the infix of `s` left after cutting whitespace off
      both ends; it neither starts nor ends with whitespace, and it is empty
      exactly when `s` is all whitespace. */
  function Strip(s: string): (r: string)
    ensures exists lo :: CutFrom(s, r, lo)
    ensures r == [] || (!IsSpace(r[0]) && !IsSpace(r[|r| - 1]))
    ensures r == [] <==> forall i :: 0 <= i < |s| ==> IsSpace(s[i])
  {
    var t := TrimStart(s);
    var r := TrimEnd(t);
    TrimmedBothEnds(s, t, r);
    r
  }

  lemma TrimmedBothEnds(s: string, t: string, r: string)
    requires |t| <= |s| && t == s[|s| - |t|..]
    requires forall i :: 0 <= i < |s| - |t| ==> IsSpace(s[i])
    requires |r| <= |t| && r == t[..|r|]
    requires forall i :: |r| <= i < |t| ==> IsSpace(t[i])
    requires r == [] || !IsSpace(r[0])
    ensures CutFrom(s, r, |s| - |t|)
    ensures r == [] <==> forall i :: 0 <= i < |s| ==> IsSpace(s[i])
  {
  }

  /** The guard `user_input and user_input.strip()`: some character of the
      transcript is not whitespace. */
  predicate HasContent(s: string)
    decreases |s|
  {
    |s| > 0 && (!IsSpace(s[0]) || HasContent(s[1..]))
  }

  /** The guard holds exactly when some character is not whitespace. */
  lemma {:induction false} HasContentIffNonSpace(s: string)
    ensures HasContent(s) <==> exists i :: 0 <= i < |s| && !IsSpace(s[i])
    decreases |s|
  {
    if |s| > 0 {
      HasContentIffNonSpace(s[1..]);
      if exists i :: 0 <= i < |s| && !IsSpace(s[i]) {
        var i :| 0 <= i < |s| && !IsSpace(s[i]);
        if i > 0 {
          assert s[1..][i - 1] == s[i];
        }
      }
      if HasContent(s[1..]) {
        var i :| 0 <= i < |s[1..]| && !IsSpace(s[1..][i]);
        assert s[i + 1] == s[1..][i];
      }
    }
  }

  /** The guard agrees with Python's reading: a transcript has content
      exactly when stripping it leaves something. */
  lemma {:induction false} HasContentIffStripped(s: string)
    ensures HasContent(s) <==> Strip(s) != []
    decreases |s|
  {
    if |s| > 0 {
      HasContentIffStripped(s[1..]);
      assert forall i :: 0 <= i < |s[1..]| ==> s[1..][i] == s[i + 1];
      if !IsSpace(s[0]) {
        assert Strip(s) != [];
      } else if Strip(s[1..]) == [] {
        assert forall i :: 0 <= i < |s| ==> IsSpace(s[i]) by {
          forall i | 0 <= i < |s| ensures IsSpace(s[i]) {
            if i > 0 { assert s[1..][i - 1] == s[i]; }
          }
        }
      } else {
        var i :| 0 <= i < |s[1..]| && !IsSpace(s[1..][i]);
        assert !IsSpace(s[i + 1]);
      }
    }
  }

  // ---------------------------------------------------------------------
  // Lowercasing
  // ---------------------------------------------------------------------

  function LowerChar(c: char): char {
    if 'A' <= c <= 'Z' then (c as int + 32) as char else c
  }

  /** Python's `s.lower()` restricted to ASCII letters. */
  function Lower(s: string): string
    decreases |s|
  {
    if s == [] then [] else [LowerChar(s[0])] + Lower(s[1..])
  }

  /** Lowercasing maps each character on its own and keeps the length. */
  lemma {:induction false} LowerPointwise(s: string)
    ensures |Lower(s)| == |s|
    ensures forall i :: 0 <= i < |s| ==> Lower(s)[i] == LowerChar(s[i])
    decreases |s|
  {
    if s != [] {
      LowerPointwise(s[1..]);
      assert forall i :: 1 <= i < |s| ==> Lower(s)[i] == Lower(s[1..])[i - 1];
    }
  }

  /** Lowercasing distributes over concatenation. */
  lemma LowerConcat(a: string, b: string)
    ensures Lower(a + b) == Lower(a) + Lower(b)
  {
    LowerPointwise(a);
    LowerPointwise(b);
    LowerPointwise(a + b);
  }

  /** Lowercasing twice is lowercasing once. */
  lemma LowerIdempotent(s: string)
    ensures Lower(Lower(s)) == Lower(s)
  {
  }

  // ---------------------------------------------------------------------
  // Substring search
  // ---------------------------------------------------------------------

  predicate StartsWith(s: string, p: string) {
    |p| <= |s| && s[..|p|] == p
  }

  /** `p` occurs in `s` beginning at index `i`. */
  predicate OccursAt(s: string, p: string, i: int) {
    0 <= i && i + |p| <= |s| && s[i..i + |p|] == p
  }

  /** Python's `p in s`, computed by trying every starting position. */
  predicate Contains(s: string, p: string)
    decreases |s|
  {
    StartsWith(s, p) || (|s| > 0 && Contains(s[1..], p))
  }

  /** The search finds `p` exactly when it occurs at some index. */
  lemma {:induction false} ContainsIff(s: string, p: string)
    ensures Contains(s, p) <==> exists i :: OccursAt(s, p, i)
    decreases |s|
  {
    if StartsWith(s, p) {
      assert OccursAt(s, p, 0);
    } else if |s| > 0 {
      ContainsIff(s[1..], p);
      if Contains(s[1..], p) {
        var i :| OccursAt(s[1..], p, i);
        assert s[1..][i..i + |p|] == s[i + 1..i + 1 + |p|];
        assert OccursAt(s, p, i + 1);
      }
      if exists i :: OccursAt(s, p, i) {
        var i :| OccursAt(s, p, i);
        if i > 0 {
          assert s[1..][i - 1..i - 1 + |p|] == s[i..i + |p|];
          assert OccursAt(s[1..], p, i - 1);
        }
      }
    }
  }

  /** An occurrence inside `t` is still an occurrence once words are put
      before and after `t`. */
  lemma ContainsInContext(a: string, t: string, b: string, p: string)
    requires Contains(t, p)
    ensures Contains(a + t + b, p)
  {
    ContainsIff(t, p);
    var i :| OccursAt(t, p, i);
    var u := a + t + b;
    assert u[|a| + i..|a| + i + |p|] == t[i..i + |p|];
    assert OccursAt(u, p, |a| + i);
    ContainsIff(u, p);
  }

  // ---------------------------------------------------------------------
  // Termination phrase
  // ---------------------------------------------------------------------

  /** The termination token searched for in every transcript. */
  const FarewellToken: string := "goodbye"

  /** The fixed reply given instead of asking the agent. */
  const FarewellReply: string := "Goodbye! Have a great day! \U{1F44B}"

  /** `"goodbye" in user_input.lower()`. */
  predicate IsFarewell(t: string) {
    Contains(Lower(t), FarewellToken)
  }

  /** The characters of `t` from index `i` on, each lowercased, spell the
      termination token. */
  predicate SpellsFarewellAt(t: string, i: int) {
    0 <= i && i + |FarewellToken| <= |t|
    && forall k :: i <= k < i + |FarewellToken| ==> LowerChar(t[k]) == FarewellToken[k - i]
  }

  /** A transcript is a goodbye exactly when, read case-insensitively, it
      spells the token somewhere. */
  lemma FarewellIff(t: string)
    ensures IsFarewell(t) <==> exists i :: SpellsFarewellAt(t, i)
  {
    LowerPointwise(t);
    ContainsIff(Lower(t), FarewellToken);
    forall i | 0 <= i && i + |FarewellToken| <= |t|
      ensures OccursAt(Lower(t), FarewellToken, i) <==> SpellsFarewellAt(t, i)
    {
      forall k | i <= k < i + |FarewellToken|
        ensures Lower(t)[i..i + |FarewellToken|][k - i] == LowerChar(t[k])
      {
      }
    }
  }

  /** Termination detection ignores what surrounds the token: whatever words
      come before or after a transcript that says goodbye, the whole still
      says goodbye. */
  lemma FarewellInAnyContext(a: string, t: string, b: string)
    requires IsFarewell(t)
    ensures IsFarewell(a + t + b)
  {
    LowerConcat(a + t, b);
    LowerConcat(a, t);
    ContainsInContext(Lower(a), Lower(t), Lower(b), FarewellToken);
  }

  /** A transcript without the letter g in either case cannot say goodbye. */
  lemma WithoutGNoFarewell(t: string)
    requires forall i :: 0 <= i < |t| ==> t[i] != 'g' && t[i] != 'G'
    ensures !IsFarewell(t)
  {
    LowerPointwise(t);
    ContainsIff(Lower(t), FarewellToken);
    forall i | 0 <= i < |t| ensures Lower(t)[i] != 'g' {
      assert LowerChar(t[i]) != 'g';
    }
    forall i | 0 <= i && i + 7 <= |t| ensures !OccursAt(Lower(t), FarewellToken, i) {
      assert Lower(t)[i] != 'g';
    }
  }

  /** Termination detection is case-insensitive: a transcript and its
      lowercase form are judged alike. */
  lemma FarewellIgnoresCase(t: string)
    ensures IsFarewell(Lower(t)) == IsFarewell(t)
  {
    LowerIdempotent(t);
  }
}

=== FILE: upload.dfy ===
/** The single-shot path of a run (main.py lines 195-247): a clip held by the
    recording widget is processed once, guarded by the `processing` flag,
    the listening flag and the content hash of its bytes. */
module Upload {
  import opened Basics
  import opened Text
  import opened Session
  import opened Voice

  /** How each external stage of one submission turns out. */
  datatype UploadOutcomes = UploadOutcomes(
    save: Stage<()>,
    transcribe: Stage<string>,
    agent: Stage<string>,
    speak: Stage<()>,
    remove: Stage<()>)

  /** The session after the submission, the effects in order, the message
      shown by `st.error` if a stage raised, and whether the run ends here
      with `st.rerun()` (only after a complete success). */
  datatype SubmitResult = SubmitResult(state: SessionState, effects: seq<Effect>, error: Option<string>, rerun: bool)

  /** The guard of line 201: nothing in flight and not in listening mode. */
  predicate Accepts(s: SessionState) {
    !s.processing && !s.listeningActive
  }

  /** Whether an admitted clip runs to the end (the `st.rerun()` of line
      243): it is saved, its transcript is not blank, a reply is produced
      and spoken, and the saved file is removed, each without raising. */
  predicate Completes(o: UploadOutcomes) {
    && o.save.Done? && o.transcribe.Done? && HasContent(o.transcribe.value)
    && Reply(o.transcribe.value, o.agent).Done? && o.speak.Done? && o.remove.Done?
  }

  /** The `except` branch: the fault is reported and `processing` cleared. */
  function Fail(s: SessionState, effects: seq<Effect>, message: string): SubmitResult {
    SubmitResult(s.(processing := false), effects, Some(message), false)
  }

  /** The work done once a new clip has been claimed (`processing` set, hash
      recorded in `s`): save, transcribe, then answer a non-blank
      transcript. A fault clears the flag; so does a complete success, which
      also ends the run. A blank transcript leaves the flag set (the reset at
      line 242 sits inside the `if` of line 216) and appends nothing. */
  function Process(s: SessionState, o: UploadOutcomes): (r: SubmitResult)
    requires s.processing
    ensures r.state == s.(chatHistory := r.state.chatHistory, processing := r.state.processing)
    ensures s.chatHistory <= r.state.chatHistory && |r.state.chatHistory| <= |s.chatHistory| + 2
    ensures RepliesFollowQuestions(s.chatHistory) ==> RepliesFollowQuestions(r.state.chatHistory)
    ensures |r.effects| > 0 && r.effects[0] == SaveUpload
    ensures PollCamera !in r.effects && RecordAudio !in r.effects
    ensures r.rerun <==> r.error.None? && !r.state.processing
    ensures r.rerun <==> Completes(o)
    ensures r.error.Some? ==> !r.state.processing
    ensures o.save.Raised? || (o.save.Done? && o.transcribe.Raised?) ==>
      r.error.Some? && r.state.chatHistory == s.chatHistory
    ensures o.save.Done? && o.transcribe.Done? && !HasContent(o.transcribe.value) ==>
      r == SubmitResult(s, [SaveUpload, Transcribe], None, false)
    ensures o.save.Done? && o.transcribe.Done? && HasContent(o.transcribe.value) ==>
      var a := Answer(s, o.transcribe.value, o);
      r == a.(effects := [SaveUpload, Transcribe] + a.effects)
  {
    match o.save
    case Raised(m) => Fail(s, [SaveUpload], m)
    case Done(_) =>
      match o.transcribe
      case Raised(m) => Fail(s, [SaveUpload, Transcribe], m)
      case Done(t) =>
        var a := Transcribed(s, t, o);
        var effects := [SaveUpload, Transcribe] + a.effects;
        a.(effects := effects)
  }

  /** What follows a transcription that returned `t`. */
  function Transcribed(s: SessionState, t: string, o: UploadOutcomes): (r: SubmitResult)
    requires s.processing
    ensures r.state == s.(chatHistory := r.state.chatHistory, processing := r.state.processing)
    ensures s.chatHistory <= r.state.chatHistory && |r.state.chatHistory| <= |s.chatHistory| + 2
    ensures RepliesFollowQuestions(s.chatHistory) ==> RepliesFollowQuestions(r.state.chatHistory)
    ensures PollCamera !in r.effects && RecordAudio !in r.effects
    ensures r.rerun <==> r.error.None? && !r.state.processing
    ensures r.error.Some? ==> !r.state.processing
    ensures !HasContent(t) ==> r == SubmitResult(s, [], None, false)
    ensures HasContent(t) ==> r == Answer(s, t, o)
  {
    if !HasContent(t) then
      SubmitResult(s, [], None, false)
    else
      var a := Answer(s, t, o);
      var h := a.state.chatHistory;
      assert h == h[..|s.chatHistory| + 1] + h[|s.chatHistory| + 1..];
      a
  }

  /** The non-blank part of a submission: the exchange is recorded, the
      reply spoken and the saved clip removed. Every way out clears the
      flag; only a complete success ends the run. Unlike a listening cycle, a
      goodbye here leaves the listening flag alone. */
  function Answer(s: SessionState, t: string, o: UploadOutcomes): (r: SubmitResult)
    ensures r.state == s.(chatHistory := Exchange(s.chatHistory, t, o.agent), processing := false)
    ensures r.rerun <==> r.error.None?
    ensures r.rerun <==> Reply(t, o.agent).Done? && o.speak.Done? && o.remove.Done?
    ensures AskAgent(t) in r.effects <==> !IsFarewell(t)
    ensures forall e :: e in r.effects ==> e.AskAgent? || e.Synthesize? || e.RemoveUpload?
  {
    var s1 := s.(chatHistory := Exchange(s.chatHistory, t, o.agent), processing := false);
    var calls := AgentCalls(t);
    match Reply(t, o.agent)
    case Raised(m) => Fail(s1, calls, m)
    case Done(text) =>
      match o.speak
      case Raised(m) => Fail(s1, calls + [Synthesize(text)], m)
      case Done(_) =>
        match o.remove
        case Raised(m) => Fail(s1, calls + [Synthesize(text), RemoveUpload], m)
        case Done(_) => SubmitResult(s1, calls + [Synthesize(text), RemoveUpload], None, true)
  }

  /** One submission of the clip `audio`, whose digest is `hash(audio)`.
      Refused outright while something is in flight or listening is on; a
      clip whose digest matches the last one is ignored without any effect.
      Otherwise the flag is set and the digest recorded before any external
      call, and the clip is processed. */
  function Submit(s: SessionState, audio: Bytes, hash: Bytes -> Digest, o: UploadOutcomes): (r: SubmitResult)
    ensures !Accepts(s) || s.lastAudioHash == Some(hash(audio)) ==>
      r == SubmitResult(s, [], None, false)
    ensures Accepts(s) && s.lastAudioHash != Some(hash(audio)) ==>
      && r.state.lastAudioHash == Some(hash(audio))
      && r.effects != [] && r.effects[0] == SaveUpload
      && r == Process(s.(processing := true, lastAudioHash := Some(hash(audio))), o)
    ensures r.effects != [] ==> Accepts(s) && s.lastAudioHash != Some(hash(audio))
    ensures r.rerun <==> Accepts(s) && s.lastAudioHash != Some(hash(audio)) && Completes(o)
    ensures r.state == s.(chatHistory := r.state.chatHistory, processing := r.state.processing,
                          lastAudioHash := r.state.lastAudioHash)
    ensures s.chatHistory <= r.state.chatHistory && |r.state.chatHistory| <= |s.chatHistory| + 2
    ensures RepliesFollowQuestions(s.chatHistory) ==> RepliesFollowQuestions(r.state.chatHistory)
    ensures PollCamera !in r.effects && RecordAudio !in r.effects
  {
    var digest := hash(audio);
    if !Accepts(s) || s.lastAudioHash == Some(digest) then
      SubmitResult(s, [], None, false)
    else
      Process(s.(processing := true, lastAudioHash := Some(digest)), o)
  }

  /** Delivering the same clip twice in a row: whatever became of the first
      delivery, the second changes nothing and makes no call. */
  lemma SubmitIdempotent(s: SessionState, audio: Bytes, hash: Bytes -> Digest, o1: UploadOutcomes, o2: UploadOutcomes)
    ensures var first := Submit(s, audio, hash, o1);
            Submit(first.state, audio, hash, o2) == SubmitResult(first.state, [], None, false)
  {
  }
}

=== FILE: voice.dfy ===
/** The continuous-listening half of a run (main.py lines 114-172): the
    Start/Stop Listening buttons and one record -> transcribe -> reply ->
    speak cycle, each stage of which may raise. */
module Voice {
  import opened Basics
  import opened Text
  import opened Session

  /** How each external stage of one listening cycle turns out. */
  datatype ListenOutcomes = ListenOutcomes(
    record: Stage<()>,
    transcribe: Stage<string>,
    agent: Stage<string>,
    speak: Stage<()>)

  /** The session after a cycle, the effects in order, and the message shown
      by `st.error` if a stage raised. */
  datatype CycleResult = CycleResult(state: SessionState, effects: seq<Effect>, error: Option<string>)

  /** The reply to a non-blank transcript: the fixed farewell when it says
      goodbye (the agent is not asked), otherwise whatever the agent
      returns or raises. Shared by both audio paths. */
  function Reply(transcript: string, agent: Stage<string>): (r: Stage<string>)
    ensures IsFarewell(transcript) ==> r == Done(FarewellReply)
    ensures r.Raised? ==> !IsFarewell(transcript) && r == agent
  {
    if IsFarewell(transcript) then Done(FarewellReply) else agent
  }

  /** The agent call a non-blank transcript causes, if any. */
  function AgentCalls(transcript: string): seq<Effect> {
    if IsFarewell(transcript) then [] else [AskAgent(transcript)]
  }

  /** "Start Listening". */
  function StartListening(s: SessionState): (r: SessionState)
    ensures r.listeningActive && r.(listeningActive := s.listeningActive) == s
  {
    s.(listeningActive := true)
  }

  /** "Stop Listening": only prevents the next cycle; nothing else changes. */
  function StopListening(s: SessionState): (r: SessionState)
    ensures !r.listeningActive && r.(listeningActive := s.listeningActive) == s
  {
    s.(listeningActive := false)
  }

  /** The `except` branch: listening is switched off and the fault reported. */
  function Abort(s: SessionState, effects: seq<Effect>, message: string): CycleResult {
    CycleResult(s.(listeningActive := false), effects, Some(message))
  }

  /** The history after a non-blank transcript `t` was heard: the question
      goes in first and, when a reply was produced, the reply right after
      it. Shared by both audio paths. */
  function Exchange(h: seq<ChatMessage>, t: string, agent: Stage<string>): (r: seq<ChatMessage>)
    ensures |r| == |h| + (if Reply(t, agent).Done? then 2 else 1)
    ensures r[..|h| + 1] == h + [ChatMessage(User, t)]
    ensures Reply(t, agent).Done? ==> r[|h| + 1] == ChatMessage(Assistant, Reply(t, agent).value)
    ensures IsFarewell(t) ==> r == h + [ChatMessage(User, t), ChatMessage(Assistant, FarewellReply)]
    ensures RepliesFollowQuestions(h) ==> RepliesFollowQuestions(r)
  {
    AppendExchange(h, t, if agent.Done? then agent.value else "");
    AppendExchange(h, t, FarewellReply);
    match Reply(t, agent)
    case Raised(_) => h + [ChatMessage(User, t)]
    case Done(text) => h + [ChatMessage(User, t), ChatMessage(Assistant, text)]
  }

  /** The part of a cycle after a non-blank transcript `t` was heard: the
      exchange is recorded and the reply spoken. Listening ends on a goodbye
      or on any fault; a fault keeps whatever was already appended, so an
      agent fault leaves the question unanswered. */
  function Converse(s: SessionState, t: string, agent: Stage<string>, speak: Stage<()>): (r: CycleResult)
    ensures r.state == s.(chatHistory := Exchange(s.chatHistory, t, agent), listeningActive := r.state.listeningActive)
    ensures r.state.listeningActive <==> s.listeningActive && r.error.None? && !IsFarewell(t)
    ensures r.error.None? <==> Reply(t, agent).Done? && speak.Done?
    ensures AskAgent(t) in r.effects <==> !IsFarewell(t)
    ensures forall e :: e in r.effects ==> e.AskAgent? || e.Synthesize? || e.DiscardRecordings?
  {
    var s1 := s.(chatHistory := Exchange(s.chatHistory, t, agent));
    var calls := AgentCalls(t);
    match Reply(t, agent)
    case Raised(m) => Abort(s1, calls, m)
    case Done(text) =>
      match speak
      case Raised(m) => Abort(s1, calls + [Synthesize(text)], m)
      case Done(_) =>
        var listening := s.listeningActive && !IsFarewell(t);
        CycleResult(s1.(listeningActive := listening), calls + [Synthesize(text), DiscardRecordings], None)
  }

  /** What follows a transcription that returned `t`: a blank transcript
      ends the cycle silently with nothing changed; anything else is
      conversed about. */
  function Heard(s: SessionState, t: string, o: ListenOutcomes): (r: CycleResult)
    ensures r.state == s.(chatHistory := r.state.chatHistory, listeningActive := r.state.listeningActive)
    ensures s.chatHistory <= r.state.chatHistory && |r.state.chatHistory| <= |s.chatHistory| + 2
    ensures r.state.listeningActive ==> s.listeningActive
    ensures r.error.Some? ==> !r.state.listeningActive
    ensures RepliesFollowQuestions(s.chatHistory) ==> RepliesFollowQuestions(r.state.chatHistory)
    ensures forall e :: e in r.effects ==> e.AskAgent? || e.Synthesize? || e.DiscardRecordings?
    ensures !HasContent(t) ==> r == CycleResult(s, [], None)
    ensures HasContent(t) ==> r == Converse(s, t, o.agent, o.speak)
  {
    if !HasContent(t) then
      CycleResult(s, [], None)
    else
      var c := Converse(s, t, o.agent, o.speak);
      var h := c.state.chatHistory;
      assert h == h[..|s.chatHistory| + 1] + h[|s.chatHistory| + 1..];
      c
  }

  /** One listening cycle. Only the chat history and the listening flag can
      change, and the history only grows, by at most a question and its
      reply. A fault in recording or transcription ends listening with
      nothing appended; a blank transcript changes nothing and ends the cycle
      silently; otherwise the cycle converses. Exactly one recording is made. */
  function ListenCycle(s: SessionState, o: ListenOutcomes): (r: CycleResult)
    ensures r.state == s.(chatHistory := r.state.chatHistory, listeningActive := r.state.listeningActive)
    ensures s.chatHistory <= r.state.chatHistory && |r.state.chatHistory| <= |s.chatHistory| + 2
    ensures r.state.listeningActive ==> s.listeningActive
    ensures r.error.Some? ==> !r.state.listeningActive
    ensures RepliesFollowQuestions(s.chatHistory) ==> RepliesFollowQuestions(r.state.chatHistory)
    ensures |r.effects| > 0 && r.effects[0] == RecordAudio
    ensures RecordAudio !in r.effects[1..] && PollCamera !in r.effects && SaveUpload !in r.effects
    ensures o.record.Raised? || (o.record.Done? && o.transcribe.Raised?) ==>
      r.state == s.(listeningActive := false) && r.error.Some?
    ensures o.record.Done? && o.transcribe.Done? && !HasContent(o.transcribe.value) ==>
      r == CycleResult(s, [RecordAudio, Transcribe], None)
    ensures o.record.Done? && o.transcribe.Done? && HasContent(o.transcribe.value) ==>
      var c := Converse(s, o.transcribe.value, o.agent, o.speak);
      r == c.(effects := [RecordAudio, Transcribe] + c.effects)
  {
    match o.record
    case Raised(m) => Abort(s, [RecordAudio], m)
    case Done(_) =>
      match o.transcribe
      case Raised(m) => Abort(s, [RecordAudio, Transcribe], m)
      case Done(t) =>
        var c := Heard(s, t, o);
        var effects := [RecordAudio, Transcribe] + c.effects;
        assert RecordAudio !in c.effects && PollCamera !in c.effects && SaveUpload !in c.effects;
        assert effects[1..] == [Transcribe] + c.effects;
        c.(effects := effects)
  }
}
